=== FILE: README.md ===
# Geometric kernel of a small path tracer, in Dafny

This project models the math core of a small C++ path tracer: the header
`src/math_definitions.h`. It covers:

- the 3-D vector `Vec` and its operators;
- the free functions `normalize`, `dot`, `cosv`, `cross` and `reflect`;
- the `Ray`;
- colours, `clamp` and surface materials;
- the ray–sphere test `SphereGeometry::intersect`;
- the actor-level test `Actor::intersect`, which turns a sphere hit into a `HitResult`.

Doubles are idealised as Dafny `real`s. `std::sqrt` becomes a parameter `sqrt`, constrained by
`SquareRoot.IsSqrt` to return the exact non-negative root of every non-negative input.

Modules, one per file:

- `Wrappers` (`wrappers.dfy`): the `Option` type.
- `SquareRoot` (`sqrt.dfy`): the square-root contract and facts about it.
- `Quadratics` (`quadratics.dfy`): real-number lemmas about quadratic equations.
- `Arith` (`arith.dfy`): cancelling a non-zero factor in a quotient.
- `VecMath` (`vec.dfy`): `Vec`, `Ray` and the vector functions.
- `Materials` (`materials.dfy`): `Colorf`, `Clamp`, `EMaterialType` and `Material`.
- `Spheres` (`spheres.dfy`): `SphereGeometry` and its intersection test.
- `Actors` (`actors.dfy`): `HitResult`, `Actor`, and the `Scene` alias.

In the C++, the two `intersect` functions return a flag and write an out-parameter. Each is modelled twice:

- `Intersect` returns an `Option`.
- `IntersectOut` keeps the C++ shape: a flag, plus the out-parameter, which is unchanged on a miss.

Findings about the sphere test:

- `t1 = (-B + sqrt(D)) / 2A` is never smaller than `t2 = (-B - sqrt(D)) / 2A`, because the root is
  non-negative and `2A` is positive. So the branch that returns `t1` can never be taken
  (`FarBranchUnreachable`), and only the near root `t2` is ever reported (`IntersectNearRoot`).
- Stated without the formula, there is a hit exactly when two things hold: the ray's line meets the
  sphere, and every meeting point lies beyond `PBR_EPSILON`. The reported point is then the first
  meeting (`IntersectFirstCrossing`).
- A ray that starts inside the sphere therefore reports no hit (`InsideNoHit`). So does a ray that
  is not heading towards the centre (`AwayNoHit`).

## Behaviour worth noting

- **Root selection.** The branch at `src/math_definitions.h:184` that would take `t1` can never
  fire (`FarBranchUnreachable`).
  - The fallback branch takes `t2`, which is the near root.
  - So a ray starting inside a sphere, whose near root is negative, gets no hit at all
    (`InsideNoHit`).
- **`HitResult::param`.** It is computed as `|point - origin| / |direction|`, which is the ray
  parameter `t2` (`Actors.Actor.ParamIsNearRoot`).
  - It equals the Euclidean distance from the origin to the point only for a unit direction.

## Model

| member | source | states |
|---|---|---|
| VecMath.Vec.SqLen | src/math_definitions.h:40-43 | the squared length is never negative |
| VecMath.SqLenZero | src/math_definitions.h:40-43 | the squared length is zero exactly for the zero vector |
| VecMath.Vec.Len | src/math_definitions.h:45-48 | the length is the non-negative number whose square is the squared length; it is zero exactly for the zero vector |
| VecMath.UnitLen | src/math_definitions.h:45-48 | a vector of squared length one has length one |
| VecMath.Vec.Scale | src/math_definitions.h:50-53 | `operator*(double)`, component by component; its properties are stated by ScaleSqLen, ScaleLen, ScaleSum and ScaleTwice |
| VecMath.ScaleSqLen | src/math_definitions.h:50-53 | scaling by s multiplies the squared length by s*s |
| VecMath.ScaleLen | src/math_definitions.h:50-53 | scaling by a non-negative s multiplies the length by s |
| VecMath.ScaleSum | src/math_definitions.h:50-53 | v*s + v*t == v*(s+t) |
| VecMath.ScaleTwice | src/math_definitions.h:50-53 | (v*a)*b == v*(a*b) |
| VecMath.Vec.Mul | src/math_definitions.h:55-58 | `operator*(const Vec&)`, the component-wise product; MulCommutes states that it commutes |
| VecMath.MulCommutes | src/math_definitions.h:55-58 | the component-wise product is commutative |
| VecMath.Vec.Div | src/math_definitions.h:60-63 | dividing by a non-zero s is undone by scaling by s |
| VecMath.Vec.Add | src/math_definitions.h:65-68 | `operator+`, component by component; SubAdd states that it undoes Sub |
| VecMath.Vec.Sub | src/math_definitions.h:70-73 | `a + b*(-1)` is the component-wise difference |
| VecMath.SubAdd | src/math_definitions.h:65-73 | adding b back to a - b gives a |
| VecMath.SqLenSub | src/math_definitions.h:70-73 | len(a - b)^2 == len(a)^2 - 2 a.b + len(b)^2 |
| VecMath.Normalize | src/math_definitions.h:78-81 | the result of a non-zero v has length one, points the same way as v (its dot product with v is len(v)), and scaled by len(v) gives v back |
| VecMath.NormalizeUnit | src/math_definitions.h:78-81 | normalising a unit vector leaves it unchanged |
| VecMath.NormalizeIdempotent | src/math_definitions.h:78-81 | normalising twice is normalising once |
| VecMath.Dot | src/math_definitions.h:84-87 | the sum of the component products; DotSymmetric, DotSelf, DotScale, DotScaleRight and DotSub state its symmetry, its link to the squared length and its linearity |
| VecMath.DotSymmetric | src/math_definitions.h:84-87 | the dot product is symmetric |
| VecMath.DotSelf | src/math_definitions.h:84-87 | v.v is the squared length, hence non-negative |
| VecMath.DotScale | src/math_definitions.h:84-87 | (a*s).(b*t) == s*t*(a.b) |
| VecMath.DotScaleRight | src/math_definitions.h:84-87 | a.(b*k) == k*(a.b) |
| VecMath.DotSub | src/math_definitions.h:84-87 | the dot product distributes over a difference in its first operand: (a - b).c == a.c - b.c |
| VecMath.Cosv | src/math_definitions.h:90-93 | the cosine times both lengths is the dot product, and it lies in [-1, 1] |
| VecMath.UnitDotBounded | src/math_definitions.h:90-93 | the dot product of two unit vectors lies in [-1, 1] |
| VecMath.CosvUnit | src/math_definitions.h:90-93 | for unit vectors the cosine is the dot product |
| VecMath.Cross | src/math_definitions.h:96-103 | the cross product is orthogonal to both operands |
| VecMath.CrossAntiCommutative | src/math_definitions.h:96-103 | b x a == -(a x b) |
| VecMath.Reflect | src/math_definitions.h:109-112 | the result is `v - n*(2 (v.n) / len(n))` for every non-zero n; for a unit normal it is the mirror image `v - n*(2 v.n)`, has the length of v, and has the opposite component along n |
| VecMath.ReflectFormula | src/math_definitions.h:111 | `n*2*cosv(v,n)*len(v)` equals `n*(2 (v.n) / len(n))`: the length of v cancels |
| VecMath.MirrorLength | src/math_definitions.h:109-112 | the mirror image keeps the squared length |
| VecMath.MirrorFlip | src/math_definitions.h:109-112 | the mirror image negates the dot product with the normal |
| VecMath.ReflectInvolution | src/math_definitions.h:109-112 | for a unit normal, reflecting twice gives the incident vector back |
| VecMath.Ray.At | src/math_definitions.h:186 | the point at t lies t directions away from the origin |
| VecMath.AtFrom | src/math_definitions.h:165-171 | seen from c, the point at t is (origin - c) + t*direction |
| VecMath.SqLenAlongLine | src/math_definitions.h:165-169 | (op + t*dir).(op + t*dir) expands to op.op + 2t(op.dir) + t^2(dir.dir) |
| VecMath.SqLenAt | src/math_definitions.h:165-169 | the squared distance from c of the point at t, as a quadratic in t |
| VecMath.StillPoint | src/math_definitions.h:186 | a ray with a zero direction stays at its origin |
| Materials.Clamp | src/math_definitions.h:132-135 | for min <= max the result lies in [min, max]; it equals x when x already does, and is always one of x, min and max |
| Materials.ClampIdempotent | src/math_definitions.h:132-135 | for min <= max, clamping twice is clamping once |
| Materials.ClampDefaults | src/math_definitions.h:132-135 | the default range is [0, 1] |
| Materials.ClampMonotone | src/math_definitions.h:132-135 | for min <= max, clamping preserves order |
| Spheres.SphereGeometry.Intersect | src/math_definitions.h:163-198 | a hit needs a non-zero ray direction; the reported point lies on the sphere and strictly beyond epsilon along the ray |
| Spheres.SphereGeometry.IntersectOut | src/math_definitions.h:163-198 | the flag is true exactly on a hit; on a hit the out-parameter is the hit point; on a miss it is left unchanged |
| Spheres.SphereGeometry.SurfaceEquation | src/math_definitions.h:165-174 | A t^2 + B t + C is the squared distance of the point at t from the centre minus radius^2, so it is zero exactly on the surface |
| Spheres.SphereGeometry.A | src/math_definitions.h:172 | the coefficient of t^2, dir.dir; SurfaceEquation states what A, B and C together measure |
| Spheres.SphereGeometry.B | src/math_definitions.h:173 | the coefficient of t, 2 (op.dir); see SurfaceEquation |
| Spheres.SphereGeometry.C | src/math_definitions.h:174 | the constant term, op.op - radius^2; see SurfaceEquation and InsideNoHit |
| Spheres.SphereGeometry.Discriminant | src/math_definitions.h:176 | B^2 - 4AC; QuadraticRoots and NoMeeting state that its sign decides whether the line meets the sphere |
| Spheres.SphereGeometry.FarRoot | src/math_definitions.h:180 | t1, the root with `+ sqrt(D)`; RootsSolve, QuadraticRoots and RootOrder state that it solves the quadratic and is the larger root |
| Spheres.SphereGeometry.NearRoot | src/math_definitions.h:181 | t2, the root with `- sqrt(D)`; RootsSolve, QuadraticRoots, RootOrder and NearRootFirst state that it solves the quadratic and is the first meeting |
| Spheres.SphereGeometry.QuadraticRoots | src/math_definitions.h:176-181 | t solves the quadratic exactly when D >= 0 and t is t1 or t2 |
| Spheres.SphereGeometry.RootsSolve | src/math_definitions.h:176-181 | t1 and t2 both solve the quadratic |
| Spheres.SphereGeometry.RootOrder | src/math_definitions.h:180-181 | t2 <= t1 |
| Spheres.SphereGeometry.FarBranchUnreachable | src/math_definitions.h:184-188 | the condition `t1 > EPSILON && t1 < t2` never holds |
| Spheres.SphereGeometry.IntersectNearRoot | src/math_definitions.h:177-197 | there is a hit exactly when A != 0, D >= 0 and t2 > epsilon, and then the point is at t2 |
| Spheres.SphereGeometry.IntersectFirstCrossing | src/math_definitions.h:163-198 | there is a hit exactly when the line meets the sphere and every meeting lies beyond epsilon; the point is the first meeting |
| Spheres.SphereGeometry.StillRay | src/math_definitions.h:180-197 | with a zero direction the line is a single point, off the surface or on it at t = 0, so the test's "meets the sphere and every meeting lies beyond epsilon" never holds |
| Spheres.SphereGeometry.NoMeeting | src/math_definitions.h:177 | a negative discriminant means the line never meets the sphere |
| Spheres.SphereGeometry.NearRootFirst | src/math_definitions.h:181-197 | t2 is the first meeting; all meetings lie beyond epsilon exactly when t2 does |
| Spheres.SphereGeometry.InsideNoHit | src/math_definitions.h:174-197 | an origin strictly inside the sphere gives no hit |
| Spheres.SphereGeometry.AwayNoHit | src/math_definitions.h:173-197 | if (o - center).dir >= 0 the near root t2 is at most zero, so there is no hit whatever the non-negative epsilon; this covers a ray leaving the surface outward, and one moving perpendicular to its offset from the centre (PassBesideMisses) |
| Spheres.SphereGeometry.ZeroDirectionNoHit | src/math_definitions.h:172-181 | a zero direction gives no hit |
| Spheres.SphereGeometry.NegativeDiscriminantMiss | src/math_definitions.h:177 | a negative discriminant is a miss, and the out-parameter is left unchanged |
| Spheres.SphereGeometry.HeadOn | src/math_definitions.h:171-191 | a unit ray aimed at the centre from distance d hits at parameter d - radius, at the pole facing it |
| Spheres.SphereGeometry.HeadOnCoefficients | src/math_definitions.h:171-176 | for that ray, A = 1, B = -2d, C = d^2 - radius^2 and D = 4 radius^2 |
| Spheres.SphereGeometry.HeadOnNearRoot | src/math_definitions.h:176-181 | for a unit ray aimed at the centre from distance d, the discriminant is non-negative and t2 == d - radius |
| Spheres.SphereGeometry.HeadOnPoint | src/math_definitions.h:191 | for that ray, the point at d - radius is radius back along the direction from the centre |
| Spheres.PassBesideMisses | src/math_definitions.h:177-197 | the ray from (0,0,-5) along x misses the unit sphere |
| Spheres.BehindMisses | src/math_definitions.h:189-197 | the ray from (0,0,-5) along -z misses the unit sphere behind it |
| Actors.Actor.Intersect | src/math_definitions.h:223-238 | hits exactly when the sphere does; the point is the sphere's point; the material is the actor's; the point is reached at param > epsilon; the normal is a unit vector, scaled by abs(radius) it is point - center, and its dot product with point - center is positive |
| Actors.Actor.IntersectOut | src/math_definitions.h:223-238 | the flag is true exactly on a hit; on a hit the out-parameter is the hit record; on a miss it is left unchanged |
| Actors.Actor.SurfaceOffset | src/math_definitions.h:231 | a point on a sphere of non-zero radius is off the centre, at distance abs(radius) |
| Actors.Actor.ParamIsNearRoot | src/math_definitions.h:228 | param is the near root t2, the first parameter at which the line meets the sphere |
| Actors.Actor.HeadOnHit | src/math_definitions.h:223-238 | a unit ray aimed at the centre from distance d gets param d - radius and a normal pointing back along the ray |
| Actors.HitParam | src/math_definitions.h:228 | for a point beyond epsilon along a ray, len(point - origin) / len(direction) is that ray parameter |
| Actors.RayParam | src/math_definitions.h:228 | len(At(t) - origin) / len(direction) == t for t >= 0 and a non-zero direction |

## Left out

- Floating point is not modelled. Doubles are reals: no rounding, overflow, underflow, NaN or
  infinity.
  - `radius` is a `float` in the C++, so `radius * radius` is rounded to single precision; here it
    is exact.
  - A zero direction makes both roots 0/0, a NaN that fails every comparison. It is modelled as an
    explicit miss (`A == 0`). A direction so small that its squared length underflows to zero is
    not distinguished.
- `std::sqrt` is an external routine. It is a parameter constrained to the exact root, because
  Dafny's reals have no square root.
- VecMath.Normalize requires a non-zero vector. For the zero vector the C++ divides by zero and
  produces NaN, which reals cannot represent.
- VecMath.Cosv and VecMath.Reflect require non-zero operands, for the same reason.
- VecMath.Reflect states its mirror properties (length kept, normal component flipped) only for a
  unit normal.
  - The only normals this header produces, `HitResult::normal` (`src/math_definitions.h:231`), are
    unit vectors: `Actors.Actor.Intersect` ensures `normal.SqLen() == 1.0`.
  - For any other normal the scaled-cosine formula is not a mirror image. The contract still gives
    the result in closed form for every non-zero normal.
- Actors.Actor.Intersect requires a non-zero radius. A hit on a point-sized sphere normalises the
  zero vector into NaN.
- `PBR_PI`, `PBR_INF` and `PBR_DEG_TO_RAD` are left out: none of the modelled operations use them.
  `PBR_EPSILON` is `Spheres.Epsilon`.
- `Point2D` is left out, since nothing here uses it. The packed colour `Colori` is only an alias
  for `uint32_t`, and no packing function appears in this header.
- The one-scalar `Vec` constructor is `VecMath.Splat`. It has no contract beyond its definition.
- Out of scope:
  - the extern default scene `PBR_SCENE_RTWEEKEND` (scene construction);
  - choosing the nearest hit across a `Scene`;
  - recursive radiance with its depth limit and random scattering.
  These live in the renderer, not in this header. `Scene` is kept as the alias `seq<Actor>`.

=== FILE: actors.dfy ===
/** Scene objects: an actor pairs a material with a sphere, and its
    intersection test enriches the sphere's hit point into a hit record. */
module Actors {
  import opened Wrappers
  import opened SquareRoot
  import opened VecMath
  import opened Materials
  import opened Spheres
  import opened Arith

  /** What an intersection reports: the ray parameter of the hit, the hit
      point, the unit outward normal there and the material hit. */
  datatype HitResult = HitResult(param: real, point: Vec, normal: Vec, material: Material)

  function Abs(x: real): real {
    if x < 0.0 then -x else x
  }

  /** An object placed in the scene. The radius must not be zero: the normal
      of a hit on a point-sized sphere is the normalised zero vector. */
  datatype Actor = Actor(material: Material, geometry: SphereGeometry) {

    /** `Actor::intersect`: on a hit of the sphere, the parameter is the
        distance to the point divided by the length of the direction, so
        the point is reached at that parameter; the normal is the unit
        vector from the centre to the point; the material is the actor's. */
    function Intersect(ray: Ray, sqrt: real -> real): (r: Option<HitResult>)
      requires IsSqrt(sqrt)
      requires geometry.radius != 0.0
      ensures r.Some? <==> geometry.Intersect(ray, sqrt).Some?
      ensures r.Some? ==> r.value.point == geometry.Intersect(ray, sqrt).value
      ensures r.Some? ==> r.value.material == material
      ensures r.Some? ==> Epsilon < r.value.param && r.value.point == ray.At(r.value.param)
      ensures r.Some? ==> r.value.normal.SqLen() == 1.0
      ensures r.Some? ==>
                r.value.normal.Scale(Abs(geometry.radius)) == r.value.point.Sub(geometry.center)
      ensures r.Some? ==> 0.0 < Dot(r.value.normal, r.value.point.Sub(geometry.center))
    {
      match geometry.Intersect(ray, sqrt)
      case None => None
      case Some(p) =>
        var v := p.Sub(geometry.center);
        HitParam(ray, p, sqrt);
        SurfaceOffset(p, sqrt);
        var param := p.Sub(ray.origin).Len(sqrt) / ray.direction.Len(sqrt);
        Some(HitResult(param, p, Normalize(v, sqrt), material))
    }

    /** The C++ signature: a hit flag, with the out-parameter `hit`
        overwritten on a hit and returned untouched on a miss. */
    function IntersectOut(ray: Ray, hit: HitResult, sqrt: real -> real): (r: (bool, HitResult))
      requires IsSqrt(sqrt)
      requires geometry.radius != 0.0
      ensures r.0 <==> geometry.Intersect(ray, sqrt).Some?
      ensures !r.0 ==> r.1 == hit
      ensures r.0 ==> r.1 == Intersect(ray, sqrt).value
    {
      match Intersect(ray, sqrt)
      case None => (false, hit)
      case Some(h) => (true, h)
    }

    // -------------------------------------------------------------------------
    // Lemmas

    /** A point on a sphere of non-zero radius is off the centre, at distance
        |radius| from it. */
    lemma SurfaceOffset(p: Vec, sqrt: real -> real)
      requires IsSqrt(sqrt)
      requires geometry.radius != 0.0
      requires geometry.OnSurface(p)
      ensures p.Sub(geometry.center) != Zero
      ensures p.Sub(geometry.center).Len(sqrt) == Abs(geometry.radius)
    {
      var rr := geometry.radius * geometry.radius;
      SquareZero(geometry.radius);
      assert p.Sub(geometry.center).SqLen() == rr;
      SqrtOfSquare(sqrt, rr, Abs(geometry.radius));
    }

    /** The reported parameter is the near root of the sphere's quadratic,
        which is the first parameter at which the ray's line meets the
        sphere. */
    lemma ParamIsNearRoot(ray: Ray, sqrt: real -> real)
      requires IsSqrt(sqrt)
      requires geometry.radius != 0.0
      requires Intersect(ray, sqrt).Some?
      ensures geometry.A(ray) != 0.0 && 0.0 <= geometry.Discriminant(ray)
      ensures Intersect(ray, sqrt).value.param == geometry.NearRoot(ray, sqrt)
      ensures geometry.FirstMeeting(ray, Intersect(ray, sqrt).value.param)
    {
      geometry.IntersectNearRoot(ray, sqrt);
      geometry.NearRootFirst(ray, sqrt);
      var h := Intersect(ray, sqrt).value;
      var t2 := geometry.NearRoot(ray, sqrt);
      assert ray.At(h.param) == ray.At(t2);
      AtInjective(ray, h.param, t2);
    }

    /** A unit-direction ray aimed at the centre of a sphere of positive
        radius from distance d hits at parameter d - radius, with the normal
        pointing back along the ray. */
    lemma HeadOnHit(ray: Ray, d: real, sqrt: real -> real)
      requires IsSqrt(sqrt)
      requires ray.direction.SqLen() == 1.0
      requires ray.origin.Sub(geometry.center) == ray.direction.Scale(-d)
      requires 0.0 < geometry.radius && Epsilon < d - geometry.radius
      ensures Intersect(ray, sqrt).Some?
      ensures Intersect(ray, sqrt).value.param == d - geometry.radius
      ensures Intersect(ray, sqrt).value.normal == ray.direction.Scale(-1.0)
    {
      var r := geometry.radius;
      geometry.HeadOn(ray, d, sqrt);
      var h := Intersect(ray, sqrt).value;
      assert h.param == d - r by {
        AtInjective(ray, h.param, d - r);
      }
      assert h.normal == ray.direction.Scale(-1.0) by {
        ScaleTwice(ray.direction, -1.0, r);
        ScaleInjective(h.normal, ray.direction.Scale(-1.0), r);
      }
    }
  }

  /** Every point of a ray with a non-zero direction is reached at a single
      parameter. */
  lemma AtInjective(ray: Ray, s: real, t: real)
    requires ray.direction != Zero
    requires ray.At(s) == ray.At(t)
    ensures s == t
  {
    var dir := ray.direction;
    assert dir.Scale(s) == dir.Scale(t);
    if dir.x != 0.0 {
      assert dir.x * s == dir.x * t;
    } else if dir.y != 0.0 {
      assert dir.y * s == dir.y * t;
    } else {
      assert dir.z * s == dir.z * t;
    }
  }

  /** Scaling by a non-zero factor is injective. */
  lemma ScaleInjective(a: Vec, b: Vec, s: real)
    requires s != 0.0
    requires a.Scale(s) == b.Scale(s)
    ensures a == b
  {
    assert a.x * s == b.x * s;
    assert a.y * s == b.y * s;
    assert a.z * s == b.z * s;
  }

  /** A point reached at t > epsilon along a ray with a non-zero direction:
      its distance from the origin divided by the length of the direction
      gives back t. */
  lemma HitParam(ray: Ray, p: Vec, sqrt: real -> real)
    requires IsSqrt(sqrt)
    requires ray.direction != Zero
    requires exists t :: Epsilon < t && p == ray.At(t)
    ensures ray.direction.Len(sqrt) != 0.0
    ensures Epsilon < p.Sub(ray.origin).Len(sqrt) / ray.direction.Len(sqrt)
    ensures p == ray.At(p.Sub(ray.origin).Len(sqrt) / ray.direction.Len(sqrt))
  {
    var t :| Epsilon < t && p == ray.At(t);
    RayParam(ray, t, sqrt);
  }

  /** The parameter recovered from a point at t >= 0 along a ray with a
      non-zero direction is t. */
  lemma RayParam(ray: Ray, t: real, sqrt: real -> real)
    requires IsSqrt(sqrt)
    requires ray.direction != Zero
    requires 0.0 <= t
    ensures ray.At(t).Sub(ray.origin).Len(sqrt) / ray.direction.Len(sqrt) == t
  {
    var l := ray.direction.Len(sqrt);
    assert l != 0.0;
    assert ray.At(t).Sub(ray.origin).Len(sqrt) == t * l by {
      ScaleLen(ray.direction, t, sqrt);
    }
    CancelFactor(t, l);
  }

  /** The scene: the actors a ray is tested against. */
  type Scene = seq<Actor>
}

=== FILE: arith.dfy ===
/** A fact about real division shared by the vector and actor modules. */
module Arith {

  /** A non-zero factor cancels. */
  lemma CancelFactor(t: real, l: real)
    requires l != 0.0
    ensures (t * l) / l == t
  {
  }
}

=== FILE: materials.dfy ===
/** Colours, clamping and surface materials. */
module Materials {
  import opened VecMath

  /** A colour is a vector read as (r, g, b), each channel meant to lie in
      [0, 1]; alpha is taken to be 1. Normalising a colour means nothing. */
  type Colorf = Vec

  /** Clamps x into [min, max], by default [0, 1]. Below min gives min, above
      max gives max, anything else is returned unchanged. */
  function Clamp(x: real, min: real := 0.0, max: real := 1.0): (r: real)
    ensures min <= max ==> min <= r <= max
    ensures min <= x <= max ==> r == x
    ensures r == x || r == min || r == max
  {
    if x < min then min else if x > max then max else x
  }

  /** The kind of reflection a surface has. */
  datatype EMaterialType = Diffuse | Specular

  /** A surface: its colour, the colour of the light it emits (zero when it
      emits nothing), and its reflection behaviour. */
  datatype Material = Material(color: Colorf, emission: Colorf, kind: EMaterialType)

  // ---------------------------------------------------------------------------
  // Lemmas

  /** Clamping twice into the same non-empty range is clamping once. */
  lemma ClampIdempotent(x: real, min: real, max: real)
    requires min <= max
    ensures Clamp(Clamp(x, min, max), min, max) == Clamp(x, min, max)
  {
  }

  /** The default range is [0, 1]. */
  lemma ClampDefaults(x: real)
    ensures 0.0 <= Clamp(x) <= 1.0
    ensures Clamp(x) == Clamp(x, 0.0, 1.0)
    ensures 0.0 <= x <= 1.0 ==> Clamp(x) == x
  {
  }

  /** Clamping is monotone: it never reorders two values. */
  lemma ClampMonotone(x: real, y: real, min: real, max: real)
    requires min <= max
    requires x <= y
    ensures Clamp(x, min, max) <= Clamp(y, min, max)
  {
  }
}

=== FILE: quadratics.dfy ===
/** Facts about real quadratics used by the ray-sphere test. */
module Quadratics {

  /** Regrouping |op + t*d|^2 = op.op + 2t(op.d) + t^2(d.d) by powers of t. */
  lemma CollectTerms(q: real, oo: real, od: real, a: real, b: real, c: real, r2: real, t: real)
    requires q == oo + 2.0 * t * od + t * t * a
    requires b == 2.0 * od && c == oo - r2
    ensures q - r2 == a * t * t + b * t + c
  {
  }

  /** 4a times the quadratic is (2at + b)^2 minus the discriminant. */
  lemma CompleteSquare(a: real, b: real, c: real, t: real)
    ensures 4.0 * a * (a * t * t + b * t + c)
         == (2.0 * a * t + b) * (2.0 * a * t + b) - (b * b - 4.0 * a * c)
  {
  }

  lemma ProductZero(p: real, q: real)
    requires p * q == 0.0
    ensures p == 0.0 || q == 0.0
  {
    if p != 0.0 {
      assert (p * q) / p == q;
    }
  }

  /** With a != 0 and s a square root of the discriminant, t solves
      a*t^2 + b*t + c = 0 exactly when 2at + b is s or -s. */
  lemma Solve(a: real, b: real, c: real, s: real, t: real)
    requires a != 0.0
    requires s * s == b * b - 4.0 * a * c
    ensures a * t * t + b * t + c == 0.0 <==> (2.0 * a * t + b == s || 2.0 * a * t + b == -s)
  {
    var u := 2.0 * a * t + b;
    var q := a * t * t + b * t + c;
    CompleteSquare(a, b, c, t);
    assert 4.0 * a * q == u * u - s * s;
    assert (u - s) * (u + s) == u * u - s * s;
    if q == 0.0 {
      ProductZero(u - s, u + s);
    }
    if u == s || u == -s {
      assert u * u - s * s == 0.0;
      ProductZero(4.0 * a, q);
    }
  }

  /** The solutions of a*t^2 + b*t + c = 0 for a != 0: none when the
      discriminant is negative, otherwise the two root forms with the
      non-negative square root s of the discriminant. */
  lemma Roots(a: real, b: real, c: real, s: real, t: real)
    requires a != 0.0
    requires 0.0 <= b * b - 4.0 * a * c ==> s * s == b * b - 4.0 * a * c
    ensures a * t * t + b * t + c == 0.0 <==>
              0.0 <= b * b - 4.0 * a * c &&
              (t == (-1.0 * b - s) / (2.0 * a) || t == (-1.0 * b + s) / (2.0 * a))
  {
    if b * b - 4.0 * a * c < 0.0 {
      NoSolution(a, b, c, t);
    } else {
      Solve(a, b, c, s, t);
      RootForm(a, -1.0 * b + s, t);
      RootForm(a, -1.0 * b - s, t);
    }
  }

  /** No t solves the quadratic when the discriminant is negative. */
  lemma NoSolution(a: real, b: real, c: real, t: real)
    requires b * b - 4.0 * a * c < 0.0
    ensures a * t * t + b * t + c != 0.0
  {
    var u := 2.0 * a * t + b;
    CompleteSquare(a, b, c, t);
    assert 0.0 <= u * u;
  }

  /** The root form (n / 2a) is the t with 2a*t == n. */
  lemma RootForm(a: real, n: real, t: real)
    requires a != 0.0
    ensures t == n / (2.0 * a) <==> 2.0 * a * t == n
  {
    if 2.0 * a * t == n {
      assert (2.0 * a * t) / (2.0 * a) == t;
    }
  }

  /** With a constant term below zero and a > 0 the root `(-b - s) / 2a`
      is negative, because s then exceeds |b|. */
  lemma NearRootNegative(a: real, b: real, c: real, s: real)
    requires 0.0 < a && c < 0.0
    requires 0.0 <= s && s * s == b * b - 4.0 * a * c
    ensures (-1.0 * b - s) / (2.0 * a) < 0.0
  {
    assert b * b < s * s;
    if s <= -b {
      MulMonotone(s, -b);
    }
    assert -1.0 * b - s < 0.0;
    NegativeQuotient(-1.0 * b - s, 2.0 * a);
  }

  lemma MulMonotone(p: real, q: real)
    requires 0.0 <= p <= q
    ensures p * p <= q * q
  {
    assert p * p <= p * q;
    assert p * q <= q * q;
  }

  lemma NegativeQuotient(n: real, d: real)
    requires n < 0.0 && 0.0 < d
    ensures n / d < 0.0
  {
    assert (n / d) * d == n;
  }

  lemma NonNegativeQuotient(n: real, d: real)
    requires 0.0 <= n && 0.0 < d
    ensures 0.0 <= n / d
  {
    assert (n / d) * d == n;
  }

  /** With a positive leading coefficient and a non-negative linear one,
      the smaller root is not positive. */
  lemma NearRootNonPositive(a: real, b: real, s: real)
    requires 0.0 < a && 0.0 <= b && 0.0 <= s
    ensures (-1.0 * b - s) / (2.0 * a) <= 0.0
  {
    NonNegativeQuotient(b + s, 2.0 * a);
    assert (-1.0 * b - s) / (2.0 * a) == -((b + s) / (2.0 * a));
  }
}

=== FILE: spheres.dfy ===
/** Ray-sphere intersection.

    Substituting the ray `o + t*dir` into `|p - center|^2 = radius^2` gives
    the quadratic `A*t^2 + B*t + C = 0` with `A = dir.dir`,
    `B = 2*(op.dir)`, `C = op.op - radius^2` and `op = o - center`. The test
    computes both roots and selects one with an epsilon guard. Since the
    square root is non-negative and `2*A` is positive, the root with `+` is
    never smaller than the root with `-`, so the branch that would prefer it
    can never be taken: only the near root is ever returned, and a ray that
    starts inside the sphere (near root negative) reports no hit. */
module Spheres {
  import opened Wrappers
  import opened SquareRoot
  import opened VecMath
  import opened Quadratics

  /** The bound a root must exceed to be reported: it rejects hits behind
      the origin and at the origin itself. */
  const Epsilon: real := 0.0001

  datatype SphereGeometry = SphereGeometry(center: Vec, radius: real) {

    /** Coefficient of t^2. */
    function A(ray: Ray): real {
      ray.direction.SqLen()
    }

    /** Coefficient of t. */
    function B(ray: Ray): real {
      2.0 * Dot(ray.origin.Sub(center), ray.direction)
    }

    /** Constant term: negative exactly when the origin is strictly inside. */
    function C(ray: Ray): real {
      ray.origin.Sub(center).SqLen() - radius * radius
    }

    function Discriminant(ray: Ray): real {
      B(ray) * B(ray) - 4.0 * A(ray) * C(ray)
    }

    function Quadratic(ray: Ray, t: real): real {
      A(ray) * t * t + B(ray) * t + C(ray)
    }

    /** p lies on the surface of the sphere. */
    ghost predicate OnSurface(p: Vec) {
      p.Sub(center).SqLen() == radius * radius
    }

    /** The root `(-B + sqrt(D)) / (2A)`, `t1` in the source. */
    function FarRoot(ray: Ray, sqrt: real -> real): real
      requires IsSqrt(sqrt)
      requires 0.0 <= Discriminant(ray) && A(ray) != 0.0
    {
      (-1.0 * B(ray) + sqrt(Discriminant(ray))) / (2.0 * A(ray))
    }

    /** The root `(-B - sqrt(D)) / (2A)`, `t2` in the source. */
    function NearRoot(ray: Ray, sqrt: real -> real): real
      requires IsSqrt(sqrt)
      requires 0.0 <= Discriminant(ray) && A(ray) != 0.0
    {
      (-1.0 * B(ray) - sqrt(Discriminant(ray))) / (2.0 * A(ray))
    }

    /** `SphereGeometry::intersect`: the hit point, if any. A zero direction
        makes both roots 0/0, a NaN that fails every comparison, so it is a
        miss. Every reported point is on the surface and is reached by
        moving forward along a non-zero direction. */
    function Intersect(ray: Ray, sqrt: real -> real): (r: Option<Vec>)
      requires IsSqrt(sqrt)
      ensures r.Some? ==> ray.direction != Zero
      ensures r.Some? ==> OnSurface(r.value)
      ensures r.Some? ==> exists t :: Epsilon < t && r.value == ray.At(t)
    {
      if Discriminant(ray) < 0.0 then None
      else if A(ray) == 0.0 then None
      else
        var t1 := FarRoot(ray, sqrt);
        var t2 := NearRoot(ray, sqrt);
        RootsSolve(ray, sqrt);
        SurfaceEquation(ray, t1);
        SurfaceEquation(ray, t2);
        if t1 > Epsilon && t1 < t2 then Some(ray.At(t1))
        else if t2 > Epsilon then Some(ray.At(t2))
        else None
    }

    /** The C++ signature: a hit flag, with the out-parameter `point`
        overwritten on a hit and returned untouched on a miss. */
    function IntersectOut(ray: Ray, point: Vec, sqrt: real -> real): (r: (bool, Vec))
      requires IsSqrt(sqrt)
      ensures r.0 <==> Intersect(ray, sqrt).Some?
      ensures !r.0 ==> r.1 == point
      ensures r.0 ==> r.1 == Intersect(ray, sqrt).value
    {
      match Intersect(ray, sqrt)
      case None => (false, point)
      case Some(p) => (true, p)
    }

    // -------------------------------------------------------------------------
    // Lemmas

    /** The quadratic measures how far the point at t is from the surface. */
    lemma SurfaceEquation(ray: Ray, t: real)
      ensures ray.At(t).Sub(center).SqLen() - radius * radius == Quadratic(ray, t)
      ensures OnSurface(ray.At(t)) <==> Quadratic(ray, t) == 0.0
    {
      SurfaceDistance(ray, t);
      OnSurfaceAt(ray.At(t), Quadratic(ray, t));
    }

    /** The squared distance from the centre of the point at t, minus
        radius^2, is the quadratic at t. */
    lemma SurfaceDistance(ray: Ray, t: real)
      ensures ray.At(t).Sub(center).SqLen() - radius * radius == Quadratic(ray, t)
    {
      SqLenAt(ray, center, t);
      CollectCoefficients(ray, t, ray.At(t).Sub(center).SqLen());
    }

    /** A point is on the surface exactly when its squared distance from
        the centre minus radius^2 is zero. */
    lemma OnSurfaceAt(p: Vec, e: real)
      requires p.Sub(center).SqLen() - radius * radius == e
      ensures OnSurface(p) <==> e == 0.0
    {
    }

    /** A squared distance q expanded along the ray, minus radius^2, is the
        quadratic at t. The hypothesis sits in the ensures as an implication
        so that callers, who hold it from `SqLenAt`, need not prove it as a
        separate obligation. */
    lemma CollectCoefficients(ray: Ray, t: real, q: real)
      ensures q == ray.origin.Sub(center).SqLen()
                  + 2.0 * t * Dot(ray.origin.Sub(center), ray.direction)
                  + t * t * ray.direction.SqLen()
              ==> q - radius * radius == Quadratic(ray, t)
    {
      var op := ray.origin.Sub(center);
      if q == op.SqLen() + 2.0 * t * Dot(op, ray.direction) + t * t * ray.direction.SqLen() {
        CollectTerms(q, op.SqLen(), Dot(op, ray.direction), A(ray), B(ray), C(ray), radius * radius, t);
      }
    }

    /** Both roots solve the quadratic. */
    lemma RootsSolve(ray: Ray, sqrt: real -> real)
      requires IsSqrt(sqrt)
      requires 0.0 <= Discriminant(ray) && A(ray) != 0.0
      ensures Quadratic(ray, FarRoot(ray, sqrt)) == 0.0
      ensures Quadratic(ray, NearRoot(ray, sqrt)) == 0.0
    {
      QuadraticRoots(ray, sqrt, FarRoot(ray, sqrt));
      QuadraticRoots(ray, sqrt, NearRoot(ray, sqrt));
    }

    /** The two roots are the only solutions, and there are none when the
        discriminant is negative. */
    lemma QuadraticRoots(ray: Ray, sqrt: real -> real, t: real)
      requires IsSqrt(sqrt)
      requires A(ray) != 0.0
      ensures Quadratic(ray, t) == 0.0 <==>
                0.0 <= Discriminant(ray) && (t == NearRoot(ray, sqrt) || t == FarRoot(ray, sqrt))
    {
      var a, b, c, dd := A(ray), B(ray), C(ray), Discriminant(ray);
      var s := sqrt(dd);
      assert dd == b * b - 4.0 * a * c;
      assert 0.0 <= dd ==> s * s == dd;
      Roots(a, b, c, s, t);
      assert Quadratic(ray, t) == a * t * t + b * t + c;
      assert 0.0 <= dd && a != 0.0 ==> NearRoot(ray, sqrt) == (-1.0 * b - s) / (2.0 * a);
      assert 0.0 <= dd && a != 0.0 ==> FarRoot(ray, sqrt) == (-1.0 * b + s) / (2.0 * a);
    }

    /** `t1 >= t2` whenever both exist. */
    lemma RootOrder(ray: Ray, sqrt: real -> real)
      requires IsSqrt(sqrt)
      requires 0.0 <= Discriminant(ray) && A(ray) != 0.0
      ensures NearRoot(ray, sqrt) <= FarRoot(ray, sqrt)
    {
      var a, b, s := A(ray), B(ray), sqrt(Discriminant(ray));
      var t1, t2 := FarRoot(ray, sqrt), NearRoot(ray, sqrt);
      RootForm(a, -1.0 * b + s, t1);
      RootForm(a, -1.0 * b - s, t2);
      assert 2.0 * a * (t1 - t2) == 2.0 * s;
      NonNegativeQuotient(2.0 * s, 2.0 * a);
      assert t1 - t2 == (2.0 * s) / (2.0 * a);
    }

    /** The branch that would return `t1` can never be taken. */
    lemma FarBranchUnreachable(ray: Ray, sqrt: real -> real)
      requires IsSqrt(sqrt)
      requires 0.0 <= Discriminant(ray) && A(ray) != 0.0
      ensures !(FarRoot(ray, sqrt) > Epsilon && FarRoot(ray, sqrt) < NearRoot(ray, sqrt))
    {
      RootOrder(ray, sqrt);
    }

    /** Only the near root is ever returned: a hit happens exactly when the
        direction is non-zero, the discriminant is non-negative and the near
        root exceeds epsilon, and the point is at the near root. */
    lemma IntersectNearRoot(ray: Ray, sqrt: real -> real)
      requires IsSqrt(sqrt)
      ensures Intersect(ray, sqrt).Some? <==>
                A(ray) != 0.0 && 0.0 <= Discriminant(ray) && NearRoot(ray, sqrt) > Epsilon
      ensures Intersect(ray, sqrt).Some? ==>
                Intersect(ray, sqrt).value == ray.At(NearRoot(ray, sqrt))
    {
      if A(ray) != 0.0 && 0.0 <= Discriminant(ray) {
        var t2 := NearRoot(ray, sqrt);
        assert Intersect(ray, sqrt) == if t2 > Epsilon then Some(ray.At(t2)) else None by {
          FarBranchUnreachable(ray, sqrt);
        }
      } else {
        assert Intersect(ray, sqrt) == None;
      }
    }

    /** Some point of the ray's line lies on the surface. */
    ghost predicate Meets(ray: Ray) {
      exists t :: OnSurface(ray.At(t))
    }

    /** Every point of the ray's line on the surface lies beyond epsilon. */
    ghost predicate AllAhead(ray: Ray) {
      forall t :: OnSurface(ray.At(t)) ==> Epsilon < t
    }

    /** t is the first parameter at which the ray's line meets the surface. */
    ghost predicate FirstMeeting(ray: Ray, t: real) {
      OnSurface(ray.At(t)) && forall s :: OnSurface(ray.At(s)) ==> t <= s
    }

    /** What the test computes, stated without the formula: it reports a hit
        exactly when the ray's line meets the sphere and every meeting
        parameter exceeds epsilon (so the origin is outside and the sphere is
        ahead), and the point it reports is the first meeting. */
    lemma IntersectFirstCrossing(ray: Ray, sqrt: real -> real)
      requires IsSqrt(sqrt)
      ensures Intersect(ray, sqrt).Some? <==> Meets(ray) && AllAhead(ray)
      ensures Intersect(ray, sqrt).Some? ==>
                exists t :: FirstMeeting(ray, t) && Intersect(ray, sqrt).value == ray.At(t)
    {
      IntersectNearRoot(ray, sqrt);
      if A(ray) == 0.0 {
        SqLenZero(ray.direction);
        ZeroDirectionNoHit(ray, sqrt);
        StillRay(ray);
      } else if Discriminant(ray) < 0.0 {
        NoMeeting(ray, sqrt);
      } else {
        NearRootFirst(ray, sqrt);
      }
    }

    /** With a zero direction the line is a single point: either it is off
        the surface, or it is on it at t = 0, which is not beyond epsilon. */
    lemma StillRay(ray: Ray)
      requires ray.direction == Zero
      ensures !(Meets(ray) && AllAhead(ray))
    {
      if OnSurface(ray.origin) {
        assert ray.At(0.0) == ray.origin by {
          StillPoint(ray, 0.0);
        }
        assert !AllAhead(ray);
      } else {
        forall t
          ensures !OnSurface(ray.At(t))
        {
          StillPoint(ray, t);
        }
        assert !Meets(ray);
      }
    }

    /** A negative discriminant: the line misses the sphere. */
    lemma NoMeeting(ray: Ray, sqrt: real -> real)
      requires IsSqrt(sqrt)
      requires A(ray) != 0.0 && Discriminant(ray) < 0.0
      ensures !Meets(ray)
    {
      forall t
        ensures !OnSurface(ray.At(t))
      {
        SurfaceEquation(ray, t);
        QuadraticRoots(ray, sqrt, t);
      }
    }

    /** Otherwise the near root is the first meeting, so all meetings lie
        beyond epsilon exactly when it does. */
    lemma NearRootFirst(ray: Ray, sqrt: real -> real)
      requires IsSqrt(sqrt)
      requires A(ray) != 0.0 && 0.0 <= Discriminant(ray)
      ensures FirstMeeting(ray, NearRoot(ray, sqrt))
      ensures Meets(ray)
      ensures AllAhead(ray) <==> Epsilon < NearRoot(ray, sqrt)
    {
      var t2 := NearRoot(ray, sqrt);
      RootOrder(ray, sqrt);
      SurfaceEquation(ray, t2);
      QuadraticRoots(ray, sqrt, t2);
      forall s | OnSurface(ray.At(s))
        ensures t2 <= s
      {
        SurfaceEquation(ray, s);
        QuadraticRoots(ray, sqrt, s);
      }
    }

    /** A ray whose origin is strictly inside the sphere reports no hit: the
        near root is negative. */
    lemma InsideNoHit(ray: Ray, sqrt: real -> real)
      requires IsSqrt(sqrt)
      requires ray.origin.Sub(center).SqLen() < radius * radius
      ensures Intersect(ray, sqrt) == None
    {
      IntersectNearRoot(ray, sqrt);
      if A(ray) != 0.0 && 0.0 <= Discriminant(ray) {
        NearRootNegative(A(ray), B(ray), C(ray), sqrt(Discriminant(ray)));
      }
    }

    /** With a zero direction there is never a hit. */
    lemma ZeroDirectionNoHit(ray: Ray, sqrt: real -> real)
      requires IsSqrt(sqrt)
      requires ray.direction == Zero
      ensures Intersect(ray, sqrt) == None
    {
    }

    /** A negative discriminant is a miss and leaves the out-parameter as it
        was. */
    lemma NegativeDiscriminantMiss(ray: Ray, point: Vec, sqrt: real -> real)
      requires IsSqrt(sqrt)
      requires Discriminant(ray) < 0.0
      ensures Intersect(ray, sqrt) == None
      ensures IntersectOut(ray, point, sqrt) == (false, point)
    {
    }

    /** A ray not heading towards the centre (its offset from the centre has
        a non-negative dot product with the direction) never hits: the near
        root is at most zero, so it is rejected by any non-negative bound,
        not only by `Epsilon`. This covers a ray leaving the surface
        outward and a ray moving perpendicular to its offset from the
        centre. */
    lemma AwayNoHit(ray: Ray, sqrt: real -> real)
      requires IsSqrt(sqrt)
      requires 0.0 <= Dot(ray.origin.Sub(center), ray.direction)
      ensures A(ray) != 0.0 && 0.0 <= Discriminant(ray) ==> NearRoot(ray, sqrt) <= 0.0
      ensures Intersect(ray, sqrt) == None
    {
      IntersectNearRoot(ray, sqrt);
      if A(ray) != 0.0 && 0.0 <= Discriminant(ray) {
        NearRootNonPositive(A(ray), B(ray), sqrt(Discriminant(ray)));
      }
    }

    /** A unit-direction ray aimed straight at the centre from distance d
        hits at parameter d - radius, at the pole facing it. */
    lemma HeadOn(ray: Ray, d: real, sqrt: real -> real)
      requires IsSqrt(sqrt)
      requires ray.direction.SqLen() == 1.0
      requires ray.origin.Sub(center) == ray.direction.Scale(-d)
      requires 0.0 < radius && Epsilon < d - radius
      ensures Intersect(ray, sqrt) == Some(ray.At(d - radius))
      ensures ray.At(d - radius).Sub(center) == ray.direction.Scale(-radius)
    {
      HeadOnNearRoot(ray, d, sqrt);
      IntersectNearRoot(ray, sqrt);
      HeadOnPoint(ray, d);
    }

    /** For that ray the near root is d - radius. */
    lemma HeadOnNearRoot(ray: Ray, d: real, sqrt: real -> real)
      requires IsSqrt(sqrt)
      requires ray.direction.SqLen() == 1.0
      requires ray.origin.Sub(center) == ray.direction.Scale(-d)
      requires 0.0 < radius
      ensures A(ray) != 0.0 && 0.0 <= Discriminant(ray)
      ensures NearRoot(ray, sqrt) == d - radius
    {
      HeadOnCoefficients(ray, d);
      assert Discriminant(ray) == (2.0 * radius) * (2.0 * radius);
      SqrtOfSquare(sqrt, Discriminant(ray), 2.0 * radius);
    }

    /** For that ray the point at d - radius is radius away from the centre,
        back along the direction. */
    lemma HeadOnPoint(ray: Ray, d: real)
      requires ray.origin.Sub(center) == ray.direction.Scale(-d)
      ensures ray.At(d - radius).Sub(center) == ray.direction.Scale(-radius)
    {
      AtFrom(ray, center, d - radius);
      ScaleSum(ray.direction, -d, d - radius);
    }

    /** The coefficients of a unit-direction ray aimed at the centre from
        distance d: the discriminant is four times radius^2, the square of
        the diameter. */
    lemma HeadOnCoefficients(ray: Ray, d: real)
      requires ray.direction.SqLen() == 1.0
      requires ray.origin.Sub(center) == ray.direction.Scale(-d)
      ensures A(ray) == 1.0 && B(ray) == -2.0 * d && C(ray) == d * d - radius * radius
      ensures Discriminant(ray) == 4.0 * radius * radius
    {
      var dir := ray.direction;
      assert Dot(ray.origin.Sub(center), dir) == -d by {
        DotScale(dir, dir, -d, 1.0);
        assert dir.Scale(1.0) == dir;
        DotSelf(dir);
      }
      assert ray.origin.Sub(center).SqLen() == d * d by {
        ScaleSqLen(dir, -d);
      }
      HeadOnDiscriminant(A(ray), B(ray), C(ray), d, radius);
    }
  }

  /** With A = 1, B = -2d and C = d^2 - r^2 the discriminant is 4 r^2: the
      head-on ray of `HeadOnCoefficients`. */
  lemma HeadOnDiscriminant(a: real, b: real, c: real, d: real, r: real)
    requires a == 1.0 && b == -2.0 * d && c == d * d - r * r
    ensures b * b - 4.0 * a * c == 4.0 * r * r
  {
  }

  /** A ray from (0, 0, -5) along the x axis passes beside the unit sphere
      at the origin. */
  lemma PassBesideMisses(sqrt: real -> real)
    requires IsSqrt(sqrt)
    ensures SphereGeometry(Zero, 1.0).Intersect(Ray(Vec(0.0, 0.0, -5.0), Vec(1.0, 0.0, 0.0)), sqrt) == None
  {
    SphereGeometry(Zero, 1.0).AwayNoHit(Ray(Vec(0.0, 0.0, -5.0), Vec(1.0, 0.0, 0.0)), sqrt);
  }

  /** A ray from (0, 0, -5) pointing away from the unit sphere at the origin
      does not hit it: the sphere is behind it. */
  lemma BehindMisses(sqrt: real -> real)
    requires IsSqrt(sqrt)
    ensures SphereGeometry(Zero, 1.0).Intersect(Ray(Vec(0.0, 0.0, -5.0), Vec(0.0, 0.0, -1.0)), sqrt) == None
  {
    SphereGeometry(Zero, 1.0).AwayNoHit(Ray(Vec(0.0, 0.0, -5.0), Vec(0.0, 0.0, -1.0)), sqrt);
  }
}

=== FILE: sqrt.dfy ===
/** The square root of the C library, idealised over the reals.

    Dafny has no square root on `real`, and the existence of one cannot be
    derived inside Dafny, so the routine is a parameter of every operation
    that needs it, constrained by `IsSqrt`: for every non-negative input it
    returns the non-negative root. */
module SquareRoot {

  ghost predicate IsSqrt(sqrt: real -> real) {
    forall x :: 0.0 <= x ==> 0.0 <= sqrt(x) && sqrt(x) * sqrt(x) == x
  }

  /** Non-negative square roots are unique. */
  lemma RootUnique(s: real, t: real)
    requires 0.0 <= s && 0.0 <= t
    requires s * s == t * t
    ensures s == t
  {
    assert (s - t) * (s + t) == s * s - t * t;
    if s + t == 0.0 {
    } else {
      assert s - t == 0.0;
    }
  }

  lemma SqrtOfSquare(sqrt: real -> real, x: real, a: real)
    requires IsSqrt(sqrt)
    requires 0.0 <= a && x == a * a
    ensures sqrt(x) == a
  {
    RootUnique(sqrt(x), a);
  }

  lemma SqrtOne(sqrt: real -> real)
    requires IsSqrt(sqrt)
    ensures sqrt(1.0) == 1.0
  {
    SqrtOfSquare(sqrt, 1.0, 1.0);
  }

  /** A non-negative factor comes out of the root: sqrt(a*a*x) == a*sqrt(x). */
  lemma SqrtScale(sqrt: real -> real, a: real, x: real)
    requires IsSqrt(sqrt)
    requires 0.0 <= a && 0.0 <= x
    ensures sqrt(a * a * x) == a * sqrt(x)
  {
    var s := sqrt(x);
    assert 0.0 <= a * s;
    assert (a * s) * (a * s) == a * a * (s * s);
    RootUnique(sqrt(a * a * x), a * s);
  }
}

=== FILE: vec.dfy ===
/** Three-dimensional vector algebra over idealised doubles (`real`), with
    the ray built from two vectors. `Vec` is also the colour type. */
module VecMath {
  import opened SquareRoot
  import opened Arith

  datatype Vec = Vec(x: real, y: real, z: real) {

    /** Squared length: never negative, and zero exactly for the zero
        vector (lemma SqLenZero). */
    function SqLen(): (r: real)
      ensures 0.0 <= r
    {
      SquareZero(x);
      SquareZero(y);
      SquareZero(z);
      x * x + y * y + z * z
    }

    /** Euclidean length: the non-negative root of the squared length. */
    function Len(sqrt: real -> real): (r: real)
      requires IsSqrt(sqrt)
      ensures 0.0 <= r && r * r == SqLen()
      ensures r == 0.0 <==> this == Zero
    {
      var q := SqLen();
      var r := sqrt(q);
      assert 0.0 <= r && r * r == q;
      SquareZero(r);
      SqLenZero(this);
      r
    }

    /** `operator*(double)`. */
    function Scale(s: real): Vec {
      Vec(x * s, y * s, z * s)
    }

    /** `operator*(const Vec&)`: the component-wise product. */
    function Mul(v: Vec): Vec {
      Vec(x * v.x, y * v.y, z * v.z)
    }

    /** `operator/`: multiplication by the reciprocal, undone by scaling back. */
    function Div(s: real): (r: Vec)
      requires s != 0.0
      ensures r.Scale(s) == this
    {
      Scale(1.0 / s)
    }

    function Add(b: Vec): Vec {
      Vec(x + b.x, y + b.y, z + b.z)
    }

    /** `operator-`, written as `a + b * (-1)`: the component-wise difference
        (adding b back undoes it, lemma SubAdd). */
    function Sub(b: Vec): (r: Vec)
      ensures r == Vec(x - b.x, y - b.y, z - b.z)
    {
      Add(b.Scale(-1.0))
    }
  }

  const Zero := Vec(0.0, 0.0, 0.0)

  lemma SquareZero(a: real)
    ensures 0.0 <= a * a
    ensures a * a == 0.0 <==> a == 0.0
  {
    if a != 0.0 {
      var sq := a * a;
      assert sq / a == a;
      assert sq != 0.0;
    }
  }

  /** The squared length is zero exactly for the zero vector. */
  lemma SqLenZero(v: Vec)
    ensures v.SqLen() == 0.0 <==> v == Zero
  {
    SquareZero(v.x);
    SquareZero(v.y);
    SquareZero(v.z);
  }

  /** Subtraction is undone by adding back. */
  lemma SubAdd(a: Vec, b: Vec)
    ensures a.Sub(b).Add(b) == a
  {
  }

  /** The constructor from one scalar, copied into every component. */
  function Splat(s: real): Vec {
    Vec(s, s, s)
  }

  function Dot(a: Vec, b: Vec): real {
    (a.x * b.x) + (a.y * b.y) + (a.z * b.z)
  }

  /** The unit vector in the direction of v: it has length one, points the
      same way as v, and scaling it by the length of v gives v back. */
  function Normalize(v: Vec, sqrt: real -> real): (r: Vec)
    requires IsSqrt(sqrt)
    requires v != Zero
    ensures r.SqLen() == 1.0
    ensures Dot(r, v) == v.Len(sqrt)
    ensures r.Scale(v.Len(sqrt)) == v
  {
    var l := v.Len(sqrt);
    var r := v.Div(l);
    ScaleSqLen(v, 1.0 / l);
    assert r.SqLen() == (1.0 / l) * (1.0 / l) * v.SqLen();
    assert (1.0 / l) * (1.0 / l) * (l * l) == 1.0;
    assert Dot(r, v) == (1.0 / l) * v.SqLen();
    r
  }

  /** The cosine of the angle between a and b: their dot product divided by
      both lengths, hence within [-1, 1]. */
  function Cosv(a: Vec, b: Vec, sqrt: real -> real): (r: real)
    requires IsSqrt(sqrt)
    requires a != Zero && b != Zero
    ensures r * a.Len(sqrt) * b.Len(sqrt) == Dot(a, b)
    ensures -1.0 <= r <= 1.0
  {
    var na := Normalize(a, sqrt);
    var nb := Normalize(b, sqrt);
    DotScale(na, nb, a.Len(sqrt), b.Len(sqrt));
    UnitDotBounded(na, nb);
    Dot(na, nb)
  }

  /** Right-handed cross product: orthogonal to both operands. */
  function Cross(a: Vec, b: Vec): (r: Vec)
    ensures Dot(r, a) == 0.0 && Dot(r, b) == 0.0
  {
    Vec(
      (a.y * b.z) - (a.z * b.y),
      (a.z * b.x) - (a.x * b.z),
      (a.x * b.y) - (a.y * b.x)
    )
  }

  /** Reflection of the incident v about the normal n, as
      `v - n * 2 * cosv(v, n) * v.len()`: v minus n scaled by twice the dot
      product over the length of n. For a unit normal this is the mirror
      formula `v - n * (2 * dot(v, n))`: it keeps the length of v and flips
      the sign of its component along n. */
  function Reflect(v: Vec, n: Vec, sqrt: real -> real): (r: Vec)
    requires IsSqrt(sqrt)
    requires v != Zero && n != Zero
    ensures r == v.Sub(n.Scale(2.0 * (Dot(v, n) / n.Len(sqrt))))
    ensures n.SqLen() == 1.0 ==> r == v.Sub(n.Scale(2.0 * Dot(v, n)))
    ensures n.SqLen() == 1.0 ==> r.SqLen() == v.SqLen()
    ensures n.SqLen() == 1.0 ==> Dot(r, n) == -Dot(v, n)
  {
    ReflectFormula(v, n, sqrt);
    var r := v.Sub(n.Scale(2.0).Scale(Cosv(v, n, sqrt)).Scale(v.Len(sqrt)));
    if n.SqLen() == 1.0 then
      UnitLen(n, sqrt);
      MirrorLength(v, n);
      MirrorFlip(v, n);
      r
    else
      r
  }

  /** A ray: an origin and a direction, which need not be a unit vector. */
  datatype Ray = Ray(origin: Vec, direction: Vec) {

    /** The point `origin + direction * t`; moving back to the origin leaves
        t times the direction. */
    function At(t: real): (p: Vec)
      ensures p.Sub(origin) == direction.Scale(t)
    {
      origin.Add(direction.Scale(t))
    }
  }

  // ---------------------------------------------------------------------------
  // Lemmas

  lemma DotSymmetric(a: Vec, b: Vec)
    ensures Dot(a, b) == Dot(b, a)
  {
  }

  /** The dot product of a vector with itself is its squared length. */
  lemma DotSelf(v: Vec)
    ensures Dot(v, v) == v.SqLen()
    ensures 0.0 <= Dot(v, v)
  {
  }

  lemma DotScale(a: Vec, b: Vec, s: real, t: real)
    ensures Dot(a.Scale(s), b.Scale(t)) == s * t * Dot(a, b)
  {
    assert (a.x * s) * (b.x * t) == s * t * (a.x * b.x);
    assert (a.y * s) * (b.y * t) == s * t * (a.y * b.y);
    assert (a.z * s) * (b.z * t) == s * t * (a.z * b.z);
  }

  /** A factor on the second operand comes out of the dot product. */
  lemma DotScaleRight(a: Vec, b: Vec, k: real)
    ensures Dot(a, b.Scale(k)) == k * Dot(a, b)
  {
    assert a.x * (b.x * k) == k * (a.x * b.x);
    assert a.y * (b.y * k) == k * (a.y * b.y);
    assert a.z * (b.z * k) == k * (a.z * b.z);
  }

  /** Scaling multiplies the squared length by s*s. */
  lemma ScaleSqLen(v: Vec, s: real)
    ensures v.Scale(s).SqLen() == s * s * v.SqLen()
  {
    var r := v.Scale(s);
    assert r.x * r.x == s * s * (v.x * v.x);
    assert r.y * r.y == s * s * (v.y * v.y);
    assert r.z * r.z == s * s * (v.z * v.z);
  }

  /** The component-wise product is commutative. */
  lemma MulCommutes(a: Vec, b: Vec)
    ensures a.Mul(b) == b.Mul(a)
  {
  }

  /** Scaling by a non-negative factor multiplies the length by it. */
  lemma ScaleLen(v: Vec, s: real, sqrt: real -> real)
    requires IsSqrt(sqrt)
    requires 0.0 <= s
    ensures v.Scale(s).Len(sqrt) == s * v.Len(sqrt)
  {
    ScaleSqLen(v, s);
    SqrtScale(sqrt, s, v.SqLen());
  }

  /** Scaling distributes over a sum of factors. */
  lemma ScaleSum(v: Vec, s: real, t: real)
    ensures v.Scale(s).Add(v.Scale(t)) == v.Scale(s + t)
  {
    assert v.x * s + v.x * t == v.x * (s + t);
    assert v.y * s + v.y * t == v.y * (s + t);
    assert v.z * s + v.z * t == v.z * (s + t);
  }

  /** The squared length of a difference. */
  lemma SqLenSub(a: Vec, b: Vec)
    ensures a.Sub(b).SqLen() == a.SqLen() - 2.0 * Dot(a, b) + b.SqLen()
  {
  }

  /** The dot product of a sum with itself. */
  lemma DotAddSelf(a: Vec, b: Vec)
    ensures Dot(a.Add(b), a.Add(b)) == Dot(a, a) + 2.0 * Dot(a, b) + Dot(b, b)
  {
  }

  /** The squared length of a point moving along a line. */
  lemma SqLenAlongLine(p: Vec, d: Vec, t: real)
    ensures p.Add(d.Scale(t)).SqLen() == p.SqLen() + 2.0 * t * Dot(p, d) + t * t * d.SqLen()
  {
    var e := d.Scale(t);
    var q := p.Add(e);
    DotSelf(q);
    DotSelf(p);
    DotSelf(d);
    DotAddSelf(p, e);
    DotScaleRight(p, d, t);
    DotScale(d, d, t, t);
  }

  /** Moving along a ray, seen from a point c. */
  lemma AtFrom(ray: Ray, c: Vec, t: real)
    ensures ray.At(t).Sub(c) == ray.origin.Sub(c).Add(ray.direction.Scale(t))
  {
  }

  /** The squared distance from c of the point at t along a ray. */
  lemma SqLenAt(ray: Ray, c: Vec, t: real)
    ensures ray.At(t).Sub(c).SqLen()
         == ray.origin.Sub(c).SqLen() + 2.0 * t * Dot(ray.origin.Sub(c), ray.direction)
            + t * t * ray.direction.SqLen()
  {
    AtFrom(ray, c, t);
    SqLenAlongLine(ray.origin.Sub(c), ray.direction, t);
  }

  /** A ray with a zero direction stays at its origin. */
  lemma StillPoint(ray: Ray, t: real)
    requires ray.direction == Zero
    ensures ray.At(t) == ray.origin
  {
  }

  /** Cauchy–Schwarz for unit vectors, from |a - b|^2 >= 0 and |a + b|^2 >= 0. */
  lemma UnitDotBounded(a: Vec, b: Vec)
    requires a.SqLen() == 1.0 && b.SqLen() == 1.0
    ensures -1.0 <= Dot(a, b) <= 1.0
  {
    var nb := b.Scale(-1.0);
    SqLenSub(a, b);
    SqLenSub(a, nb);
    ScaleSqLen(b, -1.0);
    assert nb.SqLen() == 1.0;
    assert Dot(a, nb) == -Dot(a, b);
    assert 0.0 <= a.Sub(b).SqLen() == 2.0 - 2.0 * Dot(a, b);
    assert 0.0 <= a.Sub(nb).SqLen() == 2.0 + 2.0 * Dot(a, b);
  }

  lemma CrossAntiCommutative(a: Vec, b: Vec)
    ensures Cross(a, b) == Cross(b, a).Scale(-1.0)
  {
  }

  /** A vector of squared length one has length one. */
  lemma UnitLen(n: Vec, sqrt: real -> real)
    requires IsSqrt(sqrt)
    requires n.SqLen() == 1.0
    ensures n.Len(sqrt) == 1.0
  {
    SqrtOne(sqrt);
  }

  /** Normalising a unit vector returns it unchanged. */
  lemma NormalizeUnit(n: Vec, sqrt: real -> real)
    requires IsSqrt(sqrt)
    requires n.SqLen() == 1.0
    ensures Normalize(n, sqrt) == n
  {
    UnitLen(n, sqrt);
  }

  /** Normalising is idempotent. */
  lemma NormalizeIdempotent(v: Vec, sqrt: real -> real)
    requires IsSqrt(sqrt)
    requires v != Zero
    ensures Normalize(v, sqrt) != Zero
    ensures Normalize(Normalize(v, sqrt), sqrt) == Normalize(v, sqrt)
  {
    NormalizeUnit(Normalize(v, sqrt), sqrt);
  }

  /** For unit vectors the cosine is the plain dot product. */
  lemma CosvUnit(a: Vec, b: Vec, sqrt: real -> real)
    requires IsSqrt(sqrt)
    requires a.SqLen() == 1.0 && b.SqLen() == 1.0
    ensures a != Zero && b != Zero
    ensures Cosv(a, b, sqrt) == Dot(a, b)
  {
    UnitLen(a, sqrt);
    UnitLen(b, sqrt);
  }

  /** The scaled-cosine term of `reflect` is n scaled by twice the dot
      product over the length of n: the length of v cancels. */
  lemma ReflectFormula(v: Vec, n: Vec, sqrt: real -> real)
    requires IsSqrt(sqrt)
    requires v != Zero && n != Zero
    ensures n.Scale(2.0).Scale(Cosv(v, n, sqrt)).Scale(v.Len(sqrt))
         == n.Scale(2.0 * (Dot(v, n) / n.Len(sqrt)))
  {
    var l := v.Len(sqrt);
    var ln := n.Len(sqrt);
    var c := Cosv(v, n, sqrt);
    assert c * l == Dot(v, n) / ln by {
      assert c * l * ln == Dot(v, n);
      CancelFactor(c * l, ln);
    }
    ScaleTwice(n.Scale(2.0), c, l);
    ScaleTwice(n, 2.0, Dot(v, n) / ln);
  }

  /** Scaling twice is scaling by the product. */
  lemma ScaleTwice(v: Vec, a: real, b: real)
    ensures v.Scale(a).Scale(b) == v.Scale(a * b)
  {
    assert v.x * a * b == v.x * (a * b);
    assert v.y * a * b == v.y * (a * b);
    assert v.z * a * b == v.z * (a * b);
  }

  /** The mirror formula keeps the length of v. */
  lemma MirrorLength(v: Vec, n: Vec)
    requires n.SqLen() == 1.0
    ensures v.Sub(n.Scale(2.0 * Dot(v, n))).SqLen() == v.SqLen()
  {
    var h := Dot(v, n);
    var k := 2.0 * h;
    var m := n.Scale(k);
    DotScaleRight(v, n, k);
    ScaleSqLen(n, k);
    SqLenSub(v, m);
    MirrorCancel(v.SqLen(), h);
  }

  /** Subtracting twice the component along a unit vector and adding its
      square back leaves the squared length unchanged. */
  lemma MirrorCancel(s: real, h: real)
    ensures s - 2.0 * ((2.0 * h) * h) + (2.0 * h) * (2.0 * h) == s
  {
  }

  /** The mirror formula flips the sign of the component along n. */
  lemma MirrorFlip(v: Vec, n: Vec)
    requires n.SqLen() == 1.0
    ensures Dot(v.Sub(n.Scale(2.0 * Dot(v, n))), n) == -Dot(v, n)
  {
    var h := Dot(v, n);
    var k := 2.0 * h;
    var m := n.Scale(k);
    DotScaleRight(n, n, k);
    DotSymmetric(n, m);
    DotSelf(n);
    DotSub(v, m, n);
  }

  /** Reflecting twice about the same unit normal gives the incident vector
      back. */
  lemma ReflectInvolution(v: Vec, n: Vec, sqrt: real -> real)
    requires IsSqrt(sqrt)
    requires v != Zero && n.SqLen() == 1.0
    ensures n != Zero && Reflect(v, n, sqrt) != Zero
    ensures Reflect(Reflect(v, n, sqrt), n, sqrt) == v
  {
    SqLenZero(n);
    var r := Reflect(v, n, sqrt);
    assert r.SqLen() == v.SqLen();
    SqLenZero(v);
    SqLenZero(r);
    var h := Dot(v, n);
    assert Dot(r, n) == -h;
    assert Reflect(r, n, sqrt) == r.Sub(n.Scale(2.0 * -h));
    MirrorBack(v, n, h);
  }

  /** Subtracting n*k and then n*(-k) is the identity. */
  lemma MirrorBack(v: Vec, n: Vec, h: real)
    ensures v.Sub(n.Scale(2.0 * h)).Sub(n.Scale(2.0 * -h)) == v
  {
  }

  /** The dot product distributes over a difference in its first operand. */
  lemma DotSub(a: Vec, b: Vec, c: Vec)
    ensures Dot(a.Sub(b), c) == Dot(a, c) - Dot(b, c)
  {
    var d := a.Sub(b);
    assert d.x * c.x == a.x * c.x - b.x * c.x;
    assert d.y * c.y == a.y * c.y - b.y * c.y;
    assert d.z * c.z == a.z * c.z - b.z * c.z;
  }
}

=== FILE: wrappers.dfy ===
/** The optional value returned by the intersection tests in place of the
    C++ "bool result + out-parameter" convention. */
module Wrappers {

  datatype Option<+T> = None | Some(value: T)

}
